=== FILE: README.md ===
# Event dispatcher, Order aggregate and order repository mapping

A Dafny model of the core of a small domain-driven-design code base written in
TypeScript. It has three parts:

- **The event dispatcher** (`event_dispatcher.dfy`, module `EventDispatcher`). This is a
  registry from an event's class name to the ordered list of handlers subscribed
  under that name. `register` creates a name's slot on first use and appends to
  it. `unregister` removes the first occurrence of a handler and keeps the slot,
  even when it becomes empty. `notify` invokes the handlers listed under the
  event's name, in registration order. Handlers are opaque identities (`HandlerId`).
  `Notify` returns the trace of handlers it would invoke instead of calling them.
  The registry is the `handlers` field of `Dispatcher`, which is what
  `getEventHandlers` exposes.
- **The Order aggregate** (`order.dfy`, module `Entities`). The constructors become
  functions that return a `Result` carrying the exact error message. An order is
  validated in a fixed order: id, then customerId, then items. An item is rejected
  when its quantity is not positive. `Total` is the sum of `price * quantity`.
- **The order repository's row mapping** (`order_repository.dfy`, module
  `OrderRepository`). The two tables are in-memory sequences of rows. `Create`
  turns an order into one order row plus one item row per item. `FindAll`
  rebuilds one order per order row from the item rows whose `orderId` matches.
  `Find` rebuilds one order from every item row in the table. Reconstruction goes
  through the validating constructors, so a stored row that breaks an invariant
  loads as an error. `Store(os)` is the tables after calling `create` on each of
  `os` in turn from empty tables (`StoreIsRepeatedCreate`).

`wrappers.dfy` holds the `Result` type. The implementation files of the dispatcher
(`event-dispatcher.ts`) and of the entities (`order.ts`, `order-item.ts`) are not
part of this model. Their behaviour is taken from their test files, which the
table below cites. For `unregister`, the model follows the locate-then-splice
design: the first occurrence is removed, and a missing name or handler is a
no-op. The tests only ever register distinct handlers, so they do not tell the
first occurrence apart from all occurrences.

## Model

| member | source | states |
|---|---|---|
| `EventDispatcher.Empty` | src/domain/event/@shared/event-dispatcher.spec.ts:15 | A new dispatcher invokes no handler for any event. |
| `EventDispatcher.Register` | src/domain/event/@shared/event-dispatcher.spec.ts:14-48 | The name's slot exists afterwards and holds the previous handlers (none if it was new) followed by the new one. Every other name keeps its list. |
| `EventDispatcher.RegisterOnFresh` | src/domain/event/@shared/event-dispatcher.spec.ts:14-23 | On a fresh dispatcher, one registration leaves the slot defined with length 1 and the handler at index 0. |
| `EventDispatcher.RegisterKeepsInsertionOrder` | src/domain/event/@shared/event-dispatcher.spec.ts:25-37 | Two registrations under one name keep both handlers, the first at index 0 and the second at index 1. |
| `EventDispatcher.Unregister` | src/domain/event/@shared/event-dispatcher.spec.ts:50-95 | The set of names never changes, and other names are untouched. The name's list loses exactly one copy of the handler: its length drops by one when the handler was there. Nothing changes when the name or the handler is absent. |
| `EventDispatcher.IndexOf` | src/domain/event/@shared/event-dispatcher.spec.ts:64-80 | The lookup step of `unregister` gives -1 exactly when the handler is absent. Otherwise it gives a position holding the handler, with no earlier copy. |
| `EventDispatcher.UnregisterRemovesFirst` | src/domain/event/@shared/event-dispatcher.spec.ts:64-80 | The list after unregistering is the old list without its first occurrence of the handler, with the order of the rest kept. |
| `EventDispatcher.UnregisterOnlyHandlerKeepsSlot` | src/domain/event/@shared/event-dispatcher.spec.ts:50-62 | Unregistering the only handler leaves the slot defined with length 0. |
| `EventDispatcher.UnregisterOneOfTwo` | src/domain/event/@shared/event-dispatcher.spec.ts:64-80 | Unregistering the first of two handlers leaves the slot defined, holding only the second. |
| `EventDispatcher.SlotsAreNeverDeleted` | src/domain/event/@shared/event-dispatcher.spec.ts:82-95 | After any sequence of registrations and unregistrations, a name has a slot exactly when it had one before or was registered at some point. |
| `EventDispatcher.Notify` | src/domain/event/@shared/event-dispatcher.spec.ts:97-116 | The trace is empty when the event's name has no slot. Otherwise it is the slot's list. |
| `EventDispatcher.NotifyReachesRegistered` | src/domain/event/@shared/event-dispatcher.spec.ts:97-116 | After registering a handler under the event's name, notify invokes it, after every handler registered before it. |
| `EventDispatcher.NotifyReachesAll` | src/domain/event/@shared/event-dispatcher.spec.ts:118-139 | With two handlers registered under the event's name, notify invokes both, in registration order. |
| `EventDispatcher.NotifyInvokesSubscribedInOrder` | src/domain/event/@shared/event-dispatcher.spec.ts:118-139 | For any log of registrations, notify invokes the handlers registered under the event's name in registration order, once per registration. |
| `EventDispatcher.NotifyFollowsHistory` | src/domain/event/@shared/event-dispatcher.spec.ts:141-178 | For any log of registrations and unregistrations, what notify invokes for a name equals a reference fold over only the commands for that name. |
| `EventDispatcher.OtherNamesUnaffected` | src/domain/event/@shared/event-dispatcher.spec.ts:141-178 | Registering or unregistering under one name does not change what notify invokes for any other name. |
| `EventDispatcher.NotifyRoutesEachName` | src/domain/event/@shared/event-dispatcher.spec.ts:141-178 | Two customer-created handlers and one address-changed handler are registered. Each notify reaches exactly its own name's handlers. |
| `Entities.NewOrder` | src/domain/entity/order.spec.ts:6-22 | Construction succeeds exactly when id, customerId and items are all non-empty, and keeps all three. When every item is valid, as every constructed item is, the order built satisfies the whole invariant. Otherwise the error is the first broken rule, in the order id, customerId, items, with its exact message. |
| `Entities.EmptyIdFirst` | src/domain/entity/order.spec.ts:6-10 | An empty id fails with "Id is required", whatever the other arguments are. |
| `Entities.EmptyCustomerIdBeforeItems` | src/domain/entity/order.spec.ts:12-16 | A non-empty id with an empty customerId fails with "CustomerId is required", even when the items are empty too. |
| `Entities.EmptyItemsRejected` | src/domain/entity/order.spec.ts:18-22 | A non-empty id and customerId with no items fail with "Items are required". |
| `Entities.NewOrderItem` | src/domain/entity/order.spec.ts:39-44 | An item is built exactly when its quantity is greater than zero. Otherwise construction fails with "Quantity must be greater than zero". |
| `Entities.NewOrderItems` | src/infrastructure/repository/order.repository.ts:55-57 | Building items in turn succeeds exactly when every quantity is positive, giving one valid item per field set in the same order. Otherwise it fails with the quantity message. |
| `Entities.BuildOrder` | src/domain/entity/order.spec.ts:6-44 | Building items and then the order succeeds exactly when every quantity is positive and id, customerId and items are non-empty. The result satisfies the whole invariant and holds one item per field set, in order. A non-positive quantity fails with the quantity message before the order's rules are tried. The order's rules then fail in the order id, customerId, items, each with its exact message. |
| `Entities.NonPositiveQuantityBlocksOrder` | src/domain/entity/order.spec.ts:39-44 | An item with quantity 0 or less at any position prevents the order from being built, with "Quantity must be greater than zero". |
| `Entities.BuildOrderRoundTrip` | src/domain/entity/order.spec.ts:6-44 | An order can be built from its own fields exactly when it satisfies the invariant, and then it comes back unchanged. |
| `Entities.OrderTotal` | src/domain/entity/order.spec.ts:24-37 | `total()` as a running sum of `price * quantity` over the items, first to last. It equals the recursive reference sum `Total`. |
| `Entities.TotalAppend` | src/domain/entity/order.spec.ts:24-37 | The total of two item lists joined together is the sum of their totals. |
| `Entities.TotalSnoc` | src/domain/entity/order.spec.ts:28-36 | Adding an item to the end adds exactly its `price * quantity` to the total. |
| `Entities.TotalExamples` | src/domain/entity/order.spec.ts:24-37 | [100×2] totals 200, and [100×2, 50×2] totals 300. |
| `OrderRepository.Create` | src/infrastructure/repository/order.repository.ts:8-26 | Appends one order row carrying the id, the customer id and the order's total. Appends one item row per item, in item order, copying id, name, price, product id and quantity, with `orderId` set to the order's id. Rows already stored are unchanged. |
| `OrderRepository.ItemRowsBelongToTheirOrder` | src/infrastructure/repository/order.repository.ts:14-20 | Filtering the item rows written for an order by that order's id keeps them all. Filtering them by any other id keeps none. |
| `OrderRepository.StoreIsRepeatedCreate` | src/infrastructure/repository/order.repository.spec.ts:185-189 | The tables that the round-trip lemmas read are those that calling `create` on each order in turn produces. |
| `OrderRepository.MatchingRows` | src/infrastructure/repository/order.repository.ts:73-77 | Keeps only item rows whose `orderId` is the given id, and never more rows than the table has. |
| `OrderRepository.MatchingRowsMembers` | src/infrastructure/repository/order.repository.ts:73-77 | An item row is attached to an order exactly when it is in the table and its `orderId` equals that order's id. |
| `OrderRepository.MatchingRowsAppend` | src/infrastructure/repository/order.repository.ts:73-77 | Matching over two tables joined together is matching over each in turn, so table order is kept. |
| `OrderRepository.Rebuild` | src/infrastructure/repository/order.repository.ts:71-79 | Rebuilding succeeds exactly when the row's id and customer id are non-empty and there is at least one item row, each with a positive quantity. A rebuilt order satisfies the invariant, and has the row's id and customer id and one item per given item row, in row order. A stored item with a non-positive quantity fails with the quantity message. |
| `OrderRepository.RebuildAll` | src/infrastructure/repository/order.repository.ts:70-80 | The load succeeds exactly when every order row rebuilds from its own matching item rows. It then yields one order per row, each equal to that row's rebuild. |
| `OrderRepository.RebuildAllFirstFailure` | src/infrastructure/repository/order.repository.ts:70-80 | A failed load reports the error of the first order row that does not rebuild, and every earlier row rebuilt. |
| `OrderRepository.FindAll` | src/infrastructure/repository/order.repository.ts:64-83 | On success, it returns one valid order per order row, in row order. Each order holds the row's id and customer id and exactly the item rows whose `orderId` is its id, in table order. An order row with no item row makes the load fail. |
| `OrderRepository.FindAllRejectsInvalidStoredData` | src/infrastructure/repository/order.repository.ts:73-79 | An order row with an empty id or customer id makes `findAll` fail. So does an item row of that order with a non-positive quantity. |
| `OrderRepository.FindAllItemsRequired` | src/infrastructure/repository/order.repository.ts:71-79 | With well-formed order rows, and positive quantities in every item row whose `orderId` some order row carries, `findAll` fails exactly when some order row has no item row. The error is then "Items are required". Item rows of no order are never built, whatever their quantity. |
| `OrderRepository.FindAllRoundTrip` | src/infrastructure/repository/order.repository.spec.ts:169-196 | Valid orders with distinct ids, each stored with `create`, are returned by `findAll` equal and in the same order. |
| `OrderRepository.CreatedRowsDescribeItems` | src/infrastructure/repository/order.repository.ts:14-20 | The item rows written for an order, read back as constructor arguments, are the items' own fields. Read back as items, they are the order's items in order. |
| `OrderRepository.RebuildCreatedRows` | src/infrastructure/repository/order.repository.ts:73-79 | Reading back the rows written for a valid order gives that order. |
| `OrderRepository.FindOne` | src/infrastructure/repository/order.repository.ts:59 | Returns the first order row with the id. It fails exactly when no row has that id. |
| `OrderRepository.Find` | src/infrastructure/repository/order.repository.ts:50-62 | As written: the lookup succeeds exactly when every item row in the table has a positive quantity, the item table is not empty, the id is non-empty, and the first order row with that id has a non-empty customer id. The found order is valid, carries the id, and gets one item for every item row in the table, whatever its `orderId`. Any bad item row anywhere fails the lookup with the quantity message. A missing id fails with `OrderNotFound` only once all items were built. An empty item table fails with "Items are required". |
| `OrderRepository.FindSingleStored` | src/infrastructure/repository/order.repository.spec.ts:142-167 | With one valid order stored by `create`, `find` as written returns that order unchanged, with its id, customer id and items. |
| `OrderRepository.FindAttachesForeignItems` | src/infrastructure/repository/order.repository.ts:51-57 | Counterexample: orders 123 and 456 are stored, each with one item. `find("123")` returns order 123 holding both items, not the stored order. |
| `OrderRepository.StrayRowBreaksOnlyFind` | src/infrastructure/repository/order.repository.ts:51-57 | One valid order is stored, plus a quantity-0 item row for an id that no order has. `findAll` loads the stored order, while `find` for its id fails with the quantity message. |
| `OrderRepository.FindAgreesWhenAllRowsAreOwn` | src/infrastructure/repository/order.repository.ts:50-62 | When every item row belongs to the requested order, a successful `find` as written returns the same as the corrected lookup. So the two differ only through other orders' rows. |
| `OrderRepository.FindOwnItems` | src/infrastructure/repository/order.repository.ts:50-62 | Corrected lookup: the found order is valid. It carries the id, the customer id of the first order row with that id, and exactly the item rows whose `orderId` is that id. A missing id fails with `OrderNotFound`. |
| `OrderRepository.FindOwnItemsAgreesWithFindAll` | src/infrastructure/repository/order.repository.ts:70-79 | The corrected lookup returns the same order that `findAll` builds for the first row with that id. |
| `OrderRepository.FindOwnItemsRoundTrip` | src/infrastructure/repository/order.repository.spec.ts:142-167 | Every stored valid order, with distinct ids, is found unchanged by its id. |

## Left out

- Sequelize, `async`/`Promise` and the sqlite setup: the tables are plain sequences of rows, and every call is a pure function of them.
- Primary-key and foreign-key constraints of the tables are defined by model files outside this model. `Create` always appends, and the round-trip lemmas require distinct order ids instead.
- `OrderRepository.update` (order.repository.ts:28-48): it only forwards to the library's `update`, whose treatment of nested item rows is library-defined.
- Which row `findOne` returns when several rows share an id is library-defined. The model takes the first.
- `find` for an id with no order row dereferences `null` and throws a TypeError. The model reports this as the `OrderNotFound` error.
- The stored `total` column is written by `create` and never read back. The model keeps it, and reconstruction ignores it, as the source does.
- Handler bodies (e.g. the console logging in envia-console-log-3.handler.ts:6-8): handlers are opaque identities.
- A handler that throws would abort the rest of `notify`. Handler bodies are not modelled, so neither is this.
- Event payloads and timestamps: an event is modelled by its class name only.
- `unregisterAll`: the dispatcher's tests never call it, so nothing fixes its behaviour.
- `Order.changeItems`: it is only called to feed `update` (order.repository.spec.ts:116), which is left out.
- The Customer, Address and Product entities: they are only constructed to set up the tests. No assertion about the dispatcher, the Order aggregate or the repository depends on an invariant of theirs.
- Prices and quantities are JavaScript numbers (floating point) in the source. Both are `int` here, and every value the tests use is an integer. A fractional quantity such as 0.5 passes the `quantity > 0` check in the source but cannot occur in the model.
- Row order: the source's `findAll()` queries (order.repository.ts:51 and 65-66) set no ordering, so the database chooses the order of the rows. The model takes both tables in insertion order. The "same order" of `FindAllRoundTrip` and the item order of `Find` rest on that assumption.
- Concurrency: none exists; every operation is synchronous.

## Findings

| source | as written | input that shows it | evidently intended | confidence | as-written member | corrected member |
|---|---|---|---|---|---|---|
| src/infrastructure/repository/order.repository.ts:50-62 | `find` loads every row of the order items table, with no filter on `order_id`, and attaches all of them to the order it returns | orders "123" (item "1") and "456" (item "2") stored with `create`; `find("123")` returns order 123 with items "1" and "2" | attach only the item rows whose `order_id` is the requested id, as `findAll` does | high; not executed | `OrderRepository.Find`, `OrderRepository.FindAttachesForeignItems` | `OrderRepository.FindOwnItems`, `OrderRepository.FindOwnItemsRoundTrip` |

=== FILE: event_dispatcher.dfy ===
/** The in-process event dispatcher: a registry from an event's class name to the
    ordered list of handlers subscribed under that name. Handlers are opaque
    identities compared by reference, and `Notify` returns the sequence of handlers
    it would invoke (its trace) instead of invoking them. */
module EventDispatcher {

  /** A handler instance; two handlers are the same exactly when they are the same object. */
  type HandlerId = nat

  /** An event is dispatched on its class name alone; its payload and timestamp play no part. */
  datatype Event = Event(name: string)

  /** The registry. A name becomes a key on its first registration and is never removed. */
  datatype Dispatcher = Dispatcher(handlers: map<string, seq<HandlerId>>)

  /** A new dispatcher: no slot at all, so notifying any event invokes nothing. */
  function Empty(): (d: Dispatcher)
    ensures forall e :: Notify(d, e) == []
  {
    Dispatcher(map[])
  }

  /** The handlers listed under `name`, or none when the name has no slot. */
  function Slot(d: Dispatcher, name: string): seq<HandlerId> {
    if name in d.handlers then d.handlers[name] else []
  }

  /** Creates the slot for `name` when missing and appends `h` to it; duplicates are kept. */
  function Register(d: Dispatcher, name: string, h: HandlerId): (d': Dispatcher)
    ensures d'.handlers.Keys == d.handlers.Keys + {name}
    ensures d'.handlers[name] == Slot(d, name) + [h]
    ensures forall n :: n in d.handlers && n != name ==> d'.handlers[n] == d.handlers[n]
  {
    Dispatcher(d.handlers[name := Slot(d, name) + [h]])
  }

  /** Position of the first occurrence of `h` in `s`, or -1 when there is none. */
  function IndexOf(s: seq<HandlerId>, h: HandlerId): (i: int)
    ensures i == -1 <==> h !in s
    ensures i != -1 ==> 0 <= i < |s| && s[i] == h && h !in s[..i]
  {
    if |s| == 0 then -1
    else if s[0] == h then 0
    else
      var j := IndexOf(s[1..], h);
      if j == -1 then -1
      else
        assert s[..j + 1] == [s[0]] + s[1..][..j];
        j + 1
  }

  /** Removes the first occurrence of `h` from the slot of `name` (locate, then splice).
      Nothing happens when the name has no slot or `h` is not in it; the slot itself
      stays, even when it becomes empty. */
  function Unregister(d: Dispatcher, name: string, h: HandlerId): (d': Dispatcher)
    ensures d'.handlers.Keys == d.handlers.Keys
    ensures forall n :: n in d.handlers && n != name ==> d'.handlers[n] == d.handlers[n]
    ensures name in d.handlers ==>
              multiset(d'.handlers[name]) == multiset(d.handlers[name]) - multiset{h}
    ensures name in d.handlers && h in d.handlers[name] ==>
              |d'.handlers[name]| == |d.handlers[name]| - 1
    ensures name !in d.handlers || h !in d.handlers[name] ==> d' == d
  {
    if name !in d.handlers then d
    else
      var slot := d.handlers[name];
      var i := IndexOf(slot, h);
      if i == -1 then d
      else
        assert slot == slot[..i] + [h] + slot[i + 1..];
        Dispatcher(d.handlers[name := slot[..i] + slot[i + 1..]])
  }

  /** The handlers `notify` invokes for `e`, in the order they are invoked. */
  function Notify(d: Dispatcher, e: Event): (trace: seq<HandlerId>)
    ensures e.name !in d.handlers ==> trace == []
    ensures e.name in d.handlers ==> trace == d.handlers[e.name]
  {
    Slot(d, e.name)
  }

  /** Reference definition of removal: the list without its first `h`. */
  function RemoveFirst(s: seq<HandlerId>, h: HandlerId): seq<HandlerId> {
    if |s| == 0 then []
    else if s[0] == h then s[1..]
    else [s[0]] + RemoveFirst(s[1..], h)
  }

  lemma {:induction false} SpliceIsRemoveFirst(s: seq<HandlerId>, h: HandlerId)
    requires h in s
    ensures var i := IndexOf(s, h); s[..i] + s[i + 1..] == RemoveFirst(s, h)
  {
    if s[0] != h {
      SpliceIsRemoveFirst(s[1..], h);
      var j := IndexOf(s[1..], h);
      assert IndexOf(s, h) == j + 1;
      assert s[..j + 1] == [s[0]] + s[1..][..j];
      assert s[j + 2..] == s[1..][j + 1..];
    }
  }

  /** `Unregister` removes exactly the first occurrence and keeps the order of the rest. */
  lemma UnregisterRemovesFirst(d: Dispatcher, name: string, h: HandlerId)
    requires name in d.handlers
    ensures Unregister(d, name, h).handlers[name] == RemoveFirst(d.handlers[name], h)
  {
    if h in d.handlers[name] {
      SpliceIsRemoveFirst(d.handlers[name], h);
    } else {
      RemoveFirstAbsent(d.handlers[name], h);
    }
  }

  lemma {:induction false} RemoveFirstAbsent(s: seq<HandlerId>, h: HandlerId)
    requires h !in s
    ensures RemoveFirst(s, h) == s
  {
    if |s| > 0 {
      RemoveFirstAbsent(s[1..], h);
    }
  }

  // ---------------------------------------------------------------------------
  // Behaviour over a history of subscriptions

  /** One call on the dispatcher that changes its state. */
  datatype Command = Subscribe(name: string, handler: HandlerId) | Unsubscribe(name: string, handler: HandlerId)

  function Apply(d: Dispatcher, c: Command): Dispatcher {
    match c
    case Subscribe(name, h) => Register(d, name, h)
    case Unsubscribe(name, h) => Unregister(d, name, h)
  }

  /** The dispatcher after running `log` from left to right. */
  function Replay(d: Dispatcher, log: seq<Command>): Dispatcher
    decreases |log|
  {
    if log == [] then d else Replay(Apply(d, log[0]), log[1..])
  }

  /** Reference definition: the list under `name` evolves by the commands that mention
      `name` and by nothing else. */
  function History(slot: seq<HandlerId>, log: seq<Command>, name: string): seq<HandlerId>
    decreases |log|
  {
    if log == [] then slot
    else
      var c := log[0];
      var slot' :=
        if c.name != name then slot
        else match c
          case Subscribe(_, h) => slot + [h]
          case Unsubscribe(_, h) => RemoveFirst(slot, h);
      History(slot', log[1..], name)
  }

  /** The handlers subscribed under `name` in `log`, in subscription order. */
  function Subscribed(log: seq<Command>, name: string): seq<HandlerId>
    decreases |log|
  {
    if log == [] then []
    else if log[0].Subscribe? && log[0].name == name then [log[0].handler] + Subscribed(log[1..], name)
    else Subscribed(log[1..], name)
  }

  predicate NoUnsubscribe(log: seq<Command>) {
    forall i :: 0 <= i < |log| ==> log[i].Subscribe?
  }

  lemma ApplySlot(d: Dispatcher, c: Command, name: string)
    ensures Slot(Apply(d, c), name) ==
      if c.name != name then Slot(d, name)
      else match c
        case Subscribe(_, h) => Slot(d, name) + [h]
        case Unsubscribe(_, h) => RemoveFirst(Slot(d, name), h)
  {
    if c.Unsubscribe? && c.name == name {
      if name in d.handlers {
        UnregisterRemovesFirst(d, name, c.handler);
      }
    }
  }

  /** What `notify` invokes depends only on the commands for the event's own name:
      registering or unregistering under other names never changes it. */
  lemma {:induction false} NotifyFollowsHistory(d: Dispatcher, log: seq<Command>, name: string)
    ensures Notify(Replay(d, log), Event(name)) == History(Slot(d, name), log, name)
    decreases |log|
  {
    if log != [] {
      ApplySlot(d, log[0], name);
      NotifyFollowsHistory(Apply(d, log[0]), log[1..], name);
    }
  }

  /** A slot exists exactly when it existed before or some command registered under its name. */
  lemma {:induction false} SlotsAreNeverDeleted(d: Dispatcher, log: seq<Command>, name: string)
    ensures name in Replay(d, log).handlers <==>
              name in d.handlers || exists i :: 0 <= i < |log| && log[i] == Subscribe(name, log[i].handler)
    decreases |log|
  {
    if log != [] {
      SlotsAreNeverDeleted(Apply(d, log[0]), log[1..], name);
      if name in Replay(d, log).handlers && name !in d.handlers && log[0] != Subscribe(name, log[0].handler) {
        var i :| 0 <= i < |log[1..]| && log[1..][i] == Subscribe(name, log[1..][i].handler);
        assert log[i + 1] == Subscribe(name, log[i + 1].handler);
      }
      if exists i :: 0 <= i < |log| && log[i] == Subscribe(name, log[i].handler) {
        var i :| 0 <= i < |log| && log[i] == Subscribe(name, log[i].handler);
        if i > 0 {
          assert log[1..][i - 1] == Subscribe(name, log[1..][i - 1].handler);
        }
      }
    }
  }

  lemma {:induction false} HistoryOfSubscriptions(slot: seq<HandlerId>, log: seq<Command>, name: string)
    requires NoUnsubscribe(log)
    ensures History(slot, log, name) == slot + Subscribed(log, name)
    decreases |log|
  {
    if log != [] {
      assert log[0].Subscribe?;
      assert NoUnsubscribe(log[1..]) by {
        forall i | 0 <= i < |log[1..]| ensures log[1..][i].Subscribe? {
          assert log[1..][i] == log[i + 1];
        }
      }
      if log[0].name == name {
        HistoryOfSubscriptions(slot + [log[0].handler], log[1..], name);
        assert slot + [log[0].handler] + Subscribed(log[1..], name) == slot + ([log[0].handler] + Subscribed(log[1..], name));
      } else {
        HistoryOfSubscriptions(slot, log[1..], name);
      }
    }
  }

  /** With registrations only, `notify` invokes every handler registered under the event's
      name, in registration order, once per registration (a handler registered twice runs twice). */
  lemma NotifyInvokesSubscribedInOrder(log: seq<Command>, e: Event)
    requires NoUnsubscribe(log)
    ensures Notify(Replay(Empty(), log), e) == Subscribed(log, e.name)
  {
    NotifyFollowsHistory(Empty(), log, e.name);
    HistoryOfSubscriptions([], log, e.name);
  }

  // ---------------------------------------------------------------------------
  // The scenarios of the dispatcher's tests, for all names and handlers

  lemma RegisterOnFresh(name: string, h: HandlerId)
    ensures var d := Register(Empty(), name, h);
            name in d.handlers && |d.handlers[name]| == 1 && d.handlers[name][0] == h
  {
  }

  lemma RegisterKeepsInsertionOrder(name: string, h1: HandlerId, h2: HandlerId)
    ensures var d := Register(Register(Empty(), name, h1), name, h2);
            name in d.handlers && |d.handlers[name]| == 2 &&
            d.handlers[name][0] == h1 && d.handlers[name][1] == h2
  {
  }

  lemma UnregisterOnlyHandlerKeepsSlot(name: string, h: HandlerId)
    ensures var d := Unregister(Register(Empty(), name, h), name, h);
            name in d.handlers && |d.handlers[name]| == 0
  {
  }

  lemma UnregisterOneOfTwo(name: string, h1: HandlerId, h2: HandlerId)
    ensures var d := Unregister(Register(Register(Empty(), name, h1), name, h2), name, h1);
            name in d.handlers && d.handlers[name] == [h2]
  {
  }

  /** `notify` reaches a freshly registered handler, after those registered before it. */
  lemma NotifyReachesRegistered(d: Dispatcher, e: Event, h: HandlerId)
    ensures var trace := Notify(Register(d, e.name, h), e);
            h in trace && trace == Notify(d, e) + [h]
  {
  }

  /** `notify` reaches every registered handler, not just the first. */
  lemma NotifyReachesAll(e: Event, h1: HandlerId, h2: HandlerId)
    ensures Notify(Register(Register(Empty(), e.name, h1), e.name, h2), e) == [h1, h2]
  {
  }

  /** Registering or unregistering under one name leaves what `notify` invokes for
      every other name unchanged. */
  lemma OtherNamesUnaffected(d: Dispatcher, name: string, h: HandlerId, e: Event)
    requires e.name != name
    ensures Notify(Register(d, name, h), e) == Notify(d, e)
    ensures Notify(Unregister(d, name, h), e) == Notify(d, e)
  {
  }

  /** Customer-created handlers and an address-changed handler registered side by side:
      each notify reaches the handlers of its own event name and only those. */
  lemma NotifyRoutesEachName(h1: HandlerId, h2: HandlerId, h3: HandlerId)
    ensures var d := Register(Register(Register(Empty(), "CustomerCreatedEvent", h1), "CustomerCreatedEvent", h2),
                              "CustomerAddressChangedEvent", h3);
            Notify(d, Event("CustomerCreatedEvent")) == [h1, h2] &&
            Notify(d, Event("CustomerAddressChangedEvent")) == [h3]
  {
  }
}

=== FILE: order.dfy ===
/** The Order aggregate and its OrderItem children: construction validates the
    invariants and reports the first rule that fails, and `Total` sums
    `price * quantity` over the items. Prices are integers here. */
module Entities {
  import opened Wrappers

  /** What a failed construction or load reports. The repository's lookup error lives
      here too, beside the validation errors, because a load chains the constructors
      and the lookup with `:-`, which needs one error type for the whole chain. */
  datatype Error =
    | ValidationError(message: string)
      /** `find` dereferenced the missing row of an id nobody stored. */
    | OrderNotFound

  const IdRequired := "Id is required"
  const CustomerIdRequired := "CustomerId is required"
  const ItemsRequired := "Items are required"
  const QuantityNotPositive := "Quantity must be greater than zero"

  datatype OrderItem = OrderItem(id: string, productId: string, name: string, price: int, quantity: int)

  datatype Order = Order(id: string, customerId: string, items: seq<OrderItem>)

  /** The invariant an item keeps from construction on. */
  predicate ValidItem(item: OrderItem) {
    item.quantity > 0
  }

  /** The invariant of an order: identified, owned by a customer, with at least one
      item, each of them valid. */
  predicate ValidOrder(o: Order) {
    && o.id != ""
    && o.customerId != ""
    && o.items != []
    && forall i :: 0 <= i < |o.items| ==> ValidItem(o.items[i])
  }

  /** The OrderItem constructor: only the quantity is checked. */
  function NewOrderItem(id: string, productId: string, name: string, price: int, quantity: int): (r: Result<OrderItem, Error>)
    ensures r.Success? <==> quantity > 0
    ensures r.Success? ==> r.value == OrderItem(id, productId, name, price, quantity) && ValidItem(r.value)
    ensures r.Failure? ==> r.error == ValidationError(QuantityNotPositive)
  {
    if quantity <= 0 then Failure(ValidationError(QuantityNotPositive))
    else Success(OrderItem(id, productId, name, price, quantity))
  }

  /** The Order constructor: id, then customerId, then items; the first rule broken is
      the error. The items themselves are not checked again. */
  function NewOrder(id: string, customerId: string, items: seq<OrderItem>): (r: Result<Order, Error>)
    ensures r.Success? <==> id != "" && customerId != "" && items != []
    ensures r.Success? ==> r.value == Order(id, customerId, items)
    ensures r.Success? && (forall i :: 0 <= i < |items| ==> ValidItem(items[i])) ==> ValidOrder(r.value)
    ensures id == "" ==> r == Failure(ValidationError(IdRequired))
    ensures id != "" && customerId == "" ==> r == Failure(ValidationError(CustomerIdRequired))
    ensures id != "" && customerId != "" && items == [] ==> r == Failure(ValidationError(ItemsRequired))
  {
    if id == "" then Failure(ValidationError(IdRequired))
    else if customerId == "" then Failure(ValidationError(CustomerIdRequired))
    else if items == [] then Failure(ValidationError(ItemsRequired))
    else Success(Order(id, customerId, items))
  }

  /** The fields an OrderItem is built from. */
  datatype ItemFields = ItemFields(id: string, productId: string, name: string, price: int, quantity: int)

  function FieldsOf(item: OrderItem): ItemFields {
    ItemFields(item.id, item.productId, item.name, item.price, item.quantity)
  }

  /** The item the fields describe, before any check. */
  function ItemOf(f: ItemFields): OrderItem {
    OrderItem(f.id, f.productId, f.name, f.price, f.quantity)
  }

  function FieldsOfAll(items: seq<OrderItem>): seq<ItemFields> {
    seq(|items|, i requires 0 <= i < |items| => FieldsOf(items[i]))
  }

  /** Builds the items one after the other; the first one that fails stops the rest. */
  function NewOrderItems(fields: seq<ItemFields>): (r: Result<seq<OrderItem>, Error>)
    ensures r.Success? <==> forall i :: 0 <= i < |fields| ==> fields[i].quantity > 0
    ensures r.Success? ==> |r.value| == |fields|
    ensures r.Success? ==> forall i :: 0 <= i < |fields| ==> r.value[i] == ItemOf(fields[i]) && ValidItem(r.value[i])
    ensures r.Failure? ==> r.error == ValidationError(QuantityNotPositive)
    decreases |fields|
  {
    if fields == [] then Success([])
    else
      var f := fields[0];
      var item :- NewOrderItem(f.id, f.productId, f.name, f.price, f.quantity);
      var rest :- NewOrderItems(fields[1..]);
      assert forall i :: 1 <= i < |fields| ==> fields[i] == fields[1..][i - 1];
      Success([item] + rest)
  }

  /** Every item described has a positive quantity. */
  predicate PositiveQuantities(fields: seq<ItemFields>) {
    forall i :: 0 <= i < |fields| ==> fields[i].quantity > 0
  }

  /** Building the items and then the order, as a caller (or a repository load) does:
      an item whose quantity is not positive fails before the order is attempted, and
      then the order's own rules apply in their fixed order. */
  function BuildOrder(id: string, customerId: string, fields: seq<ItemFields>): (r: Result<Order, Error>)
    ensures r.Success? <==> PositiveQuantities(fields) && id != "" && customerId != "" && fields != []
    ensures r.Success? ==> ValidOrder(r.value) && r.value.id == id && r.value.customerId == customerId
    ensures r.Success? ==> |r.value.items| == |fields|
    ensures r.Success? ==> forall i :: 0 <= i < |fields| ==> r.value.items[i] == ItemOf(fields[i])
    ensures !PositiveQuantities(fields) ==> r == Failure(ValidationError(QuantityNotPositive))
    ensures PositiveQuantities(fields) && id == "" ==> r == Failure(ValidationError(IdRequired))
    ensures PositiveQuantities(fields) && id != "" && customerId == "" ==>
              r == Failure(ValidationError(CustomerIdRequired))
    ensures PositiveQuantities(fields) && id != "" && customerId != "" && fields == [] ==>
              r == Failure(ValidationError(ItemsRequired))
  {
    var items :- NewOrderItems(fields);
    NewOrder(id, customerId, items)
  }

  /** An order exists exactly when its invariant holds: every valid order is rebuilt
      unchanged from its own fields, and no other order can be built from them. */
  lemma BuildOrderRoundTrip(o: Order)
    ensures BuildOrder(o.id, o.customerId, FieldsOfAll(o.items)).Success? <==> ValidOrder(o)
    ensures ValidOrder(o) ==> BuildOrder(o.id, o.customerId, FieldsOfAll(o.items)) == Success(o)
  {
    var fields := FieldsOfAll(o.items);
    var items := NewOrderItems(fields);
    if items.Success? {
      assert items.value == o.items;
    } else {
      var k :| 0 <= k < |fields| && fields[k].quantity <= 0;
      assert !ValidItem(o.items[k]);
    }
  }

  /** The value of one item. */
  function ItemTotal(item: OrderItem): int {
    item.price * item.quantity
  }

  /** `total()`: the sum of `price * quantity` over the items. */
  function Total(items: seq<OrderItem>): int
    decreases |items|
  {
    if items == [] then 0 else ItemTotal(items[0]) + Total(items[1..])
  }

  /** `total()` as the running sum over the items, from first to last; it agrees with
      the recursive sum `Total`. */
  method OrderTotal(o: Order) returns (total: int)
    ensures total == Total(o.items)
  {
    total := 0;
    var i := 0;
    while i < |o.items|
      invariant 0 <= i <= |o.items|
      invariant total == Total(o.items[..i])
    {
      assert o.items[..i + 1] == o.items[..i] + [o.items[i]];
      TotalSnoc(o.items[..i], o.items[i]);
      total := total + o.items[i].price * o.items[i].quantity;
      i := i + 1;
    }
    assert o.items[..i] == o.items;
  }

  /** The total is additive over item lists. */
  lemma {:induction false} TotalAppend(a: seq<OrderItem>, b: seq<OrderItem>)
    ensures Total(a + b) == Total(a) + Total(b)
    decreases |a|
  {
    if a == [] {
      assert a + b == b;
    } else {
      assert (a + b)[1..] == a[1..] + b;
      TotalAppend(a[1..], b);
    }
  }

  /** Adding an item to the end adds exactly its `price * quantity`. */
  lemma TotalSnoc(items: seq<OrderItem>, item: OrderItem)
    ensures Total(items + [item]) == Total(items) + item.price * item.quantity
  {
    TotalAppend(items, [item]);
  }

  // ---------------------------------------------------------------------------
  // The scenarios of the entity's tests

  lemma EmptyIdFirst(customerId: string, items: seq<OrderItem>)
    ensures NewOrder("", customerId, items) == Failure(ValidationError("Id is required"))
  {
  }

  lemma EmptyCustomerIdBeforeItems(id: string, items: seq<OrderItem>)
    requires id != ""
    ensures NewOrder(id, "", items) == Failure(ValidationError("CustomerId is required"))
  {
  }

  lemma EmptyItemsRejected(id: string, customerId: string)
    requires id != "" && customerId != ""
    ensures NewOrder(id, customerId, []) == Failure(ValidationError("Items are required"))
  {
  }

  lemma TotalExamples()
    ensures Total([OrderItem("i1", "p1", "Item 1", 100, 2)]) == 200
    ensures Total([OrderItem("i1", "p1", "Item 1", 100, 2), OrderItem("2", "p2", "Item 2", 50, 2)]) == 300
  {
  }

  /** An item with quantity zero or below cannot be built, so no order holding it can be. */
  lemma NonPositiveQuantityBlocksOrder(id: string, customerId: string, fields: seq<ItemFields>, k: nat)
    requires k < |fields| && fields[k].quantity <= 0
    ensures BuildOrder(id, customerId, fields) == Failure(ValidationError("Quantity must be greater than zero"))
  {
  }
}

=== FILE: order_repository.dfy ===
/** The pure part of the order repository. The two tables are in-memory sequences
    of rows: `Create` maps an order to one order row and its item rows, and
    `FindAll` / `Find` rebuild orders from the rows through the validating
    constructors, so stored rows that break an invariant load as an error. */
module OrderRepository {
  import opened Wrappers
  import opened Entities

  /** A row of the orders table; the stored total is written but never read back. */
  datatype OrderRow = OrderRow(id: string, customerId: string, total: int)

  /** A row of the order items table, tied to its order by `orderId`. */
  datatype ItemRow = ItemRow(id: string, name: string, price: int, productId: string, quantity: int, orderId: string)

  /** Both tables. Rows are taken to come back in insertion order; the queries set no
      ordering, so the database is free to choose another. */
  datatype Tables = Tables(orders: seq<OrderRow>, items: seq<ItemRow>)

  function EmptyTables(): Tables {
    Tables([], [])
  }

  function OrderRowOf(o: Order): OrderRow {
    OrderRow(o.id, o.customerId, Total(o.items))
  }

  function ItemRowOf(item: OrderItem, orderId: string): ItemRow {
    ItemRow(item.id, item.name, item.price, item.productId, item.quantity, orderId)
  }

  /** The item rows `create` writes for `o`. */
  function ItemRowsOf(o: Order): (rows: seq<ItemRow>)
    ensures forall i :: 0 <= i < |rows| ==> rows[i].orderId == o.id
  {
    seq(|o.items|, i requires 0 <= i < |o.items| => ItemRowOf(o.items[i], o.id))
  }

  /** `create`: one order row carrying the id, the customer and the computed total,
      and one item row per item, in item order, each pointing back at the order.
      Rows already stored are left as they were. */
  function Create(t: Tables, o: Order): (t': Tables)
    ensures |t'.orders| == |t.orders| + 1 && t'.orders[..|t.orders|] == t.orders
    ensures var row := t'.orders[|t.orders|];
            row.id == o.id && row.customerId == o.customerId && row.total == Total(o.items)
    ensures |t'.items| == |t.items| + |o.items| && t'.items[..|t.items|] == t.items
    ensures forall i :: |t.items| <= i < |t'.items| ==>
              var row, item := t'.items[i], o.items[i - |t.items|];
              && row.id == item.id && row.name == item.name && row.price == item.price
              && row.productId == item.productId && row.quantity == item.quantity
              && row.orderId == o.id
  {
    Tables(t.orders + [OrderRowOf(o)], t.items + ItemRowsOf(o))
  }

  /** The fields `new OrderItem(...)` receives from a stored row. */
  function FieldsOfRow(row: ItemRow): ItemFields {
    ItemFields(row.id, row.productId, row.name, row.price, row.quantity)
  }

  function FieldsOfRows(rows: seq<ItemRow>): seq<ItemFields> {
    seq(|rows|, i requires 0 <= i < |rows| => FieldsOfRow(rows[i]))
  }

  /** The items the given rows describe, as the constructor would build them. */
  function ItemsOfRows(rows: seq<ItemRow>): seq<OrderItem> {
    seq(|rows|, i requires 0 <= i < |rows| => ItemOf(FieldsOfRow(rows[i])))
  }

  /** The item rows whose `orderId` is `orderId`, in table order. */
  function MatchingRows(rows: seq<ItemRow>, orderId: string): (res: seq<ItemRow>)
    ensures |res| <= |rows|
    ensures forall i :: 0 <= i < |res| ==> res[i].orderId == orderId
    decreases |rows|
  {
    if rows == [] then []
    else if rows[0].orderId == orderId then [rows[0]] + MatchingRows(rows[1..], orderId)
    else MatchingRows(rows[1..], orderId)
  }

  /** One order rebuilt from its row and the item rows given to it, through the
      validating constructors: items first, in order, then the order itself. A stored
      row that breaks an invariant makes the load fail. */
  function Rebuild(row: OrderRow, itemRows: seq<ItemRow>): (r: Result<Order, Error>)
    ensures r.Success? <==> && row.id != "" && row.customerId != "" && itemRows != []
                            && forall i :: 0 <= i < |itemRows| ==> itemRows[i].quantity > 0
    ensures r.Success? ==> r.value == Order(row.id, row.customerId, ItemsOfRows(itemRows)) && ValidOrder(r.value)
    ensures (exists i :: 0 <= i < |itemRows| && itemRows[i].quantity <= 0) ==>
              r == Failure(ValidationError(QuantityNotPositive))
    ensures row.id == "" || row.customerId == "" || itemRows == [] ==> r.Failure?
  {
    assert forall i :: 0 <= i < |itemRows| ==> FieldsOfRows(itemRows)[i].quantity == itemRows[i].quantity;
    BuildOrder(row.id, row.customerId, FieldsOfRows(itemRows))
  }

  /** The loop of `findAll` over the order rows: each row gets its own matching item
      rows, and the first order that fails to rebuild ends the load with its error. */
  function RebuildAll(orderRows: seq<OrderRow>, itemRows: seq<ItemRow>): (r: Result<seq<Order>, Error>)
    ensures r.Success? <==>
              forall i :: 0 <= i < |orderRows| ==> Rebuild(orderRows[i], MatchingRows(itemRows, orderRows[i].id)).Success?
    ensures r.Success? ==> |r.value| == |orderRows|
    ensures r.Success? ==> forall i :: 0 <= i < |orderRows| ==>
              Success(r.value[i]) == Rebuild(orderRows[i], MatchingRows(itemRows, orderRows[i].id))
    decreases |orderRows|
  {
    if orderRows == [] then Success([])
    else
      var first :- Rebuild(orderRows[0], MatchingRows(itemRows, orderRows[0].id));
      var rest :- RebuildAll(orderRows[1..], itemRows);
      assert forall i :: 1 <= i < |orderRows| ==> orderRows[i] == orderRows[1..][i - 1];
      Success([first] + rest)
  }

  /** `findAll`: one order per order row, in row order, each holding exactly the item
      rows whose `orderId` is its id; an order row with no item rows fails the load. */
  function FindAll(t: Tables): (r: Result<seq<Order>, Error>)
    ensures r.Success? ==> |r.value| == |t.orders|
    ensures r.Success? ==> forall i :: 0 <= i < |t.orders| ==>
              r.value[i] == Order(t.orders[i].id, t.orders[i].customerId, ItemsOfRows(MatchingRows(t.items, t.orders[i].id)))
    ensures r.Success? ==> forall i :: 0 <= i < |r.value| ==> ValidOrder(r.value[i])
    ensures (exists i :: 0 <= i < |t.orders| && MatchingRows(t.items, t.orders[i].id) == []) ==> r.Failure?
  {
    var r := RebuildAll(t.orders, t.items);
    if r.Failure? then r
    else
      assert forall i :: 0 <= i < |t.orders| ==>
        Success(r.value[i]) == Rebuild(t.orders[i], MatchingRows(t.items, t.orders[i].id));
      r
  }

  /** `OrderModel.findOne` by id: the first row with that id. */
  function FindOne(rows: seq<OrderRow>, id: string): (r: Result<OrderRow, Error>)
    ensures r.Failure? <==> forall i :: 0 <= i < |rows| ==> rows[i].id != id
    ensures r.Failure? ==> r.error == OrderNotFound
    ensures r.Success? ==> exists k :: 0 <= k < |rows| && rows[k] == r.value && r.value.id == id &&
                             forall j :: 0 <= j < k ==> rows[j].id != id
    decreases |rows|
  {
    if rows == [] then Failure(OrderNotFound)
    else if rows[0].id == id then Success(rows[0])
    else
      var r := FindOne(rows[1..], id);
      assert forall i :: 1 <= i < |rows| ==> rows[i] == rows[1..][i - 1];
      r
  }

  /** `find(id)` as written: it builds an item from EVERY item row in the table, with no
      filter on `orderId`, before it looks the order row up, and attaches all of them
      to that order. A missing order row surfaces only after the items were built. */
  function Find(t: Tables, id: string): (r: Result<Order, Error>)
    ensures r.Success? <==> && (forall i :: 0 <= i < |t.items| ==> t.items[i].quantity > 0)
                            && id != "" && t.items != []
                            && FindOne(t.orders, id).Success? && FindOne(t.orders, id).value.customerId != ""
    ensures r.Success? ==> r.value.id == id && r.value.items == ItemsOfRows(t.items) && ValidOrder(r.value)
    ensures r.Success? ==> exists k :: 0 <= k < |t.orders| && t.orders[k].id == id &&
                             r.value.customerId == t.orders[k].customerId
    ensures (exists i :: 0 <= i < |t.items| && t.items[i].quantity <= 0) ==>
              r == Failure(ValidationError(QuantityNotPositive))
    ensures (forall i :: 0 <= i < |t.items| ==> t.items[i].quantity > 0) &&
            (forall k :: 0 <= k < |t.orders| ==> t.orders[k].id != id) ==>
              r == Failure(OrderNotFound)
    ensures && (forall i :: 0 <= i < |t.items| ==> t.items[i].quantity > 0)
            && id != "" && t.items == []
            && FindOne(t.orders, id).Success? && FindOne(t.orders, id).value.customerId != "" ==>
              r == Failure(ValidationError(ItemsRequired))
  {
    assert forall i :: 0 <= i < |t.items| ==> FieldsOfRows(t.items)[i].quantity == t.items[i].quantity;
    var items :- NewOrderItems(FieldsOfRows(t.items));
    var row :- FindOne(t.orders, id);
    NewOrder(row.id, row.customerId, items)
  }

  /** `find(id)` as evidently intended: the order row with that id, holding only the item
      rows whose `orderId` is that id, as `findAll` rebuilds it. */
  function FindOwnItems(t: Tables, id: string): (r: Result<Order, Error>)
    ensures r.Success? ==> FindOne(t.orders, id).Success? &&
                           r.value == Order(id, FindOne(t.orders, id).value.customerId, ItemsOfRows(MatchingRows(t.items, id)))
    ensures r.Success? ==> ValidOrder(r.value)
    ensures (forall k :: 0 <= k < |t.orders| ==> t.orders[k].id != id) ==> r == Failure(OrderNotFound)
  {
    var row :- FindOne(t.orders, id);
    Rebuild(row, MatchingRows(t.items, row.id))
  }

  // ---------------------------------------------------------------------------
  // Properties of the row mapping

  /** An item row is attached to an order exactly when its `orderId` is that order's id. */
  lemma {:induction false} MatchingRowsMembers(rows: seq<ItemRow>, orderId: string, row: ItemRow)
    ensures row in MatchingRows(rows, orderId) <==> row in rows && row.orderId == orderId
    decreases |rows|
  {
    if rows != [] {
      MatchingRowsMembers(rows[1..], orderId, row);
      assert rows == [rows[0]] + rows[1..];
    }
  }

  /** When `findAll` fails, its error is that of the first order row that does not
      rebuild; every row before it rebuilt. */
  lemma {:induction false} RebuildAllFirstFailure(orderRows: seq<OrderRow>, itemRows: seq<ItemRow>)
    ensures RebuildAll(orderRows, itemRows).Failure? ==>
            exists k :: 0 <= k < |orderRows|
              && Rebuild(orderRows[k], MatchingRows(itemRows, orderRows[k].id)) == Failure(RebuildAll(orderRows, itemRows).error)
              && forall j :: 0 <= j < k ==> Rebuild(orderRows[j], MatchingRows(itemRows, orderRows[j].id)).Success?
    decreases |orderRows|
  {
    var r := RebuildAll(orderRows, itemRows);
    if r.Success? {
      return;
    }
    var first := Rebuild(orderRows[0], MatchingRows(itemRows, orderRows[0].id));
    if first.Failure? {
      assert r == Failure(first.error);
      return;
    }
    var rest := orderRows[1..];
    var r' := RebuildAll(rest, itemRows);
    assert r'.Failure? && r.error == r'.error;
    RebuildAllFirstFailure(rest, itemRows);
    var k :| 0 <= k < |rest|
            && Rebuild(rest[k], MatchingRows(itemRows, rest[k].id)) == Failure(r'.error)
            && forall j :: 0 <= j < k ==> Rebuild(rest[j], MatchingRows(itemRows, rest[j].id)).Success?;
    RowsBeforeRebuild(orderRows, itemRows, k);
    assert orderRows[k + 1] == rest[k];
  }

  /** One step of `RebuildAllFirstFailure`: the rows before position `k + 1` rebuild when
      the first row and the rows before `k` of the rest do. */
  lemma RowsBeforeRebuild(orderRows: seq<OrderRow>, itemRows: seq<ItemRow>, k: nat)
    requires k < |orderRows| - 1
    requires Rebuild(orderRows[0], MatchingRows(itemRows, orderRows[0].id)).Success?
    requires forall j :: 0 <= j < k ==> Rebuild(orderRows[1..][j], MatchingRows(itemRows, orderRows[1..][j].id)).Success?
    ensures forall j :: 0 <= j < k + 1 ==> Rebuild(orderRows[j], MatchingRows(itemRows, orderRows[j].id)).Success?
  {
    forall j | 0 <= j < k + 1
      ensures Rebuild(orderRows[j], MatchingRows(itemRows, orderRows[j].id)).Success?
    {
      if j > 0 {
        assert orderRows[j] == orderRows[1..][j - 1];
      }
    }
  }


  /** Bad stored data surfaces on load: an order row with an empty id or customer id, or
      an item row of that order with a non-positive quantity, makes `findAll` fail. */
  lemma FindAllRejectsInvalidStoredData(t: Tables, k: nat)
    requires k < |t.orders|
    requires || t.orders[k].id == ""
             || t.orders[k].customerId == ""
             || exists i :: 0 <= i < |t.items| && t.items[i].orderId == t.orders[k].id && t.items[i].quantity <= 0
    ensures FindAll(t).Failure?
  {
    var rows := MatchingRows(t.items, t.orders[k].id);
    if exists i :: 0 <= i < |t.items| && t.items[i].orderId == t.orders[k].id && t.items[i].quantity <= 0 {
      var i :| 0 <= i < |t.items| && t.items[i].orderId == t.orders[k].id && t.items[i].quantity <= 0;
      MatchingRowsMembers(t.items, t.orders[k].id, t.items[i]);
      var j :| 0 <= j < |rows| && rows[j] == t.items[i];
    }
    assert Rebuild(t.orders[k], rows).Failure?;
  }

  /** The item rows written for an order are attached to it by `findAll`'s filter, and
      to no order with another id. */
  lemma ItemRowsBelongToTheirOrder(o: Order, id: string)
    ensures MatchingRows(ItemRowsOf(o), id) == if id == o.id then ItemRowsOf(o) else []
  {
    MatchingRowsAllOrNone(ItemRowsOf(o), o.id, id);
  }

  lemma {:induction false} MatchingRowsAppend(a: seq<ItemRow>, b: seq<ItemRow>, orderId: string)
    ensures MatchingRows(a + b, orderId) == MatchingRows(a, orderId) + MatchingRows(b, orderId)
    decreases |a|
  {
    if a == [] {
      assert a + b == b;
    } else {
      assert (a + b)[1..] == a[1..] + b;
      MatchingRowsAppend(a[1..], b, orderId);
    }
  }

  lemma {:induction false} MatchingRowsAllOrNone(rows: seq<ItemRow>, owner: string, orderId: string)
    requires forall i :: 0 <= i < |rows| ==> rows[i].orderId == owner
    ensures MatchingRows(rows, orderId) == if owner == orderId then rows else []
    decreases |rows|
  {
    if rows != [] {
      MatchingRowsAllOrNone(rows[1..], owner, orderId);
      assert rows == [rows[0]] + rows[1..];
    }
  }

  /** The item rows `create` writes carry every field of the items back: read as
      constructor arguments they are the items' own fields, and read as items they are
      the items themselves, in order. */
  lemma CreatedRowsDescribeItems(o: Order)
    ensures FieldsOfRows(ItemRowsOf(o)) == FieldsOfAll(o.items)
    ensures ItemsOfRows(ItemRowsOf(o)) == o.items
  {
  }

  /** Reading back the rows `create` wrote for a valid order gives the order back. */
  lemma RebuildCreatedRows(o: Order)
    requires ValidOrder(o)
    ensures Rebuild(OrderRowOf(o), ItemRowsOf(o)) == Success(o)
  {
    CreatedRowsDescribeItems(o);
    BuildOrderRoundTrip(o);
  }

  /** The item rows of `os`, order after order. */
  function StoredItemRows(os: seq<Order>): seq<ItemRow>
    decreases |os|
  {
    if os == [] then [] else StoredItemRows(os[..|os| - 1]) + ItemRowsOf(os[|os| - 1])
  }

  /** The tables after storing `os` with `create`, one after the other, from empty
      tables (see `StoreIsRepeatedCreate`). */
  function Store(os: seq<Order>): Tables {
    Tables(seq(|os|, i requires 0 <= i < |os| => OrderRowOf(os[i])), StoredItemRows(os))
  }

  /** `Store` is `create` applied to each order in turn. */
  lemma StoreIsRepeatedCreate(os: seq<Order>, o: Order)
    ensures Store([]) == EmptyTables()
    ensures Store(os + [o]) == Create(Store(os), o)
  {
    assert (os + [o])[..|os|] == os;
  }

  predicate DistinctIds(os: seq<Order>) {
    forall i, j :: 0 <= i < j < |os| ==> os[i].id != os[j].id
  }

  lemma StoreStep(os: seq<Order>)
    requires os != []
    ensures Store(os).items == Store(os[..|os| - 1]).items + ItemRowsOf(os[|os| - 1])
  {
  }

  lemma StoredOrderRows(os: seq<Order>)
    ensures |Store(os).orders| == |os|
    ensures forall i :: 0 <= i < |os| ==> Store(os).orders[i] == OrderRowOf(os[i])
  {
  }

  /** No item row is stored under an id that no stored order has. */
  lemma {:induction false} NoStoredItemRows(os: seq<Order>, id: string)
    requires forall i :: 0 <= i < |os| ==> os[i].id != id
    ensures MatchingRows(Store(os).items, id) == []
    decreases |os|
  {
    if os != [] {
      var p, o := os[..|os| - 1], os[|os| - 1];
      StoreStep(os);
      forall i | 0 <= i < |p| ensures p[i].id != id {
        assert p[i] == os[i];
      }
      NoStoredItemRows(p, id);
      MatchingRowsAppend(Store(p).items, ItemRowsOf(o), id);
      ItemRowsBelongToTheirOrder(o, id);
    }
  }

  /** The item rows stored under a stored order's id are exactly that order's rows. */
  lemma {:induction false} OwnStoredItemRows(os: seq<Order>, k: nat)
    requires DistinctIds(os) && k < |os|
    ensures MatchingRows(Store(os).items, os[k].id) == ItemRowsOf(os[k])
    decreases |os|
  {
    var p, o := os[..|os| - 1], os[|os| - 1];
    StoreStep(os);
    MatchingRowsAppend(Store(p).items, ItemRowsOf(o), os[k].id);
    ItemRowsBelongToTheirOrder(o, os[k].id);
    if k < |p| {
      assert DistinctIds(p) by {
        forall i, j | 0 <= i < j < |p| ensures p[i].id != p[j].id {
          assert p[i] == os[i] && p[j] == os[j];
        }
      }
      assert p[k] == os[k];
      OwnStoredItemRows(p, k);
    } else {
      forall i | 0 <= i < |p| ensures p[i].id != o.id {
        assert p[i] == os[i];
      }
      NoStoredItemRows(p, o.id);
    }
  }

  /** `RebuildAll` succeeds with the given orders when every row rebuilds to its order. */
  lemma {:induction false} RebuildAllSucceeds(orderRows: seq<OrderRow>, itemRows: seq<ItemRow>, os: seq<Order>)
    requires |orderRows| == |os|
    requires forall i :: 0 <= i < |os| ==> Rebuild(orderRows[i], MatchingRows(itemRows, orderRows[i].id)) == Success(os[i])
    ensures RebuildAll(orderRows, itemRows) == Success(os)
    decreases |os|
  {
    if os != [] {
      forall i | 0 <= i < |os| - 1
        ensures Rebuild(orderRows[1..][i], MatchingRows(itemRows, orderRows[1..][i].id)) == Success(os[1..][i])
      {
        assert orderRows[1..][i] == orderRows[i + 1];
      }
      RebuildAllSucceeds(orderRows[1..], itemRows, os[1..]);
      assert Rebuild(orderRows[0], MatchingRows(itemRows, orderRows[0].id)) == Success(os[0]);
      assert RebuildAll(orderRows, itemRows) == Success([os[0]] + os[1..]);
      assert os == [os[0]] + os[1..];
    }
  }

  lemma RebuildStoredRow(os: seq<Order>, i: nat)
    requires forall j :: 0 <= j < |os| ==> ValidOrder(os[j])
    requires DistinctIds(os) && i < |os|
    ensures |Store(os).orders| == |os|
    ensures Rebuild(Store(os).orders[i], MatchingRows(Store(os).items, Store(os).orders[i].id)) == Success(os[i])
  {
    StoredOrderRows(os);
    OwnStoredItemRows(os, i);
    RebuildCreatedRows(os[i]);
  }

  /** Round trip: valid orders with distinct ids stored with `create` are returned by
      `findAll` unchanged and in the same order. */
  lemma FindAllRoundTrip(os: seq<Order>)
    requires forall i :: 0 <= i < |os| ==> ValidOrder(os[i])
    requires DistinctIds(os)
    ensures FindAll(Store(os)) == Success(os)
  {
    var t := Store(os);
    StoredOrderRows(os);
    forall i | 0 <= i < |os|
      ensures Rebuild(t.orders[i], MatchingRows(t.items, t.orders[i].id)) == Success(os[i])
    {
      RebuildStoredRow(os, i);
    }
    RebuildAllSucceeds(t.orders, t.items, os);
  }

  /** Some order row carries the id. */
  predicate HasOrder(orders: seq<OrderRow>, id: string) {
    exists k :: 0 <= k < |orders| && orders[k].id == id
  }

  /** With well-formed order rows, and well-formed item rows wherever an order row
      claims them, `findAll` fails exactly when some order row has no item row, and
      then with "Items are required". Item rows that belong to no order are never
      built, whatever their quantity. */
  lemma FindAllItemsRequired(t: Tables)
    requires forall k :: 0 <= k < |t.orders| ==> t.orders[k].id != "" && t.orders[k].customerId != ""
    requires forall i :: 0 <= i < |t.items| && HasOrder(t.orders, t.items[i].orderId) ==> t.items[i].quantity > 0
    ensures FindAll(t).Failure? <==> exists k :: 0 <= k < |t.orders| && MatchingRows(t.items, t.orders[k].id) == []
    ensures FindAll(t).Failure? ==> FindAll(t).error == ValidationError(ItemsRequired)
  {
    var r := RebuildAll(t.orders, t.items);
    if r.Failure? {
      RebuildAllFirstFailure(t.orders, t.items);
      var k :| 0 <= k < |t.orders| && Rebuild(t.orders[k], MatchingRows(t.items, t.orders[k].id)) == Failure(r.error);
      forall i | 0 <= i < |t.items| && t.items[i].orderId == t.orders[k].id
        ensures t.items[i].quantity > 0
      {
        assert HasOrder(t.orders, t.items[i].orderId);
      }
      MatchingRowsPositive(t.items, t.orders[k].id);
      assert t.orders[k].id != "" && t.orders[k].customerId != "";
      RebuildWellFormed(t.orders[k], MatchingRows(t.items, t.orders[k].id));
    }
  }

  lemma {:induction false} MatchingRowsPositive(rows: seq<ItemRow>, orderId: string)
    requires forall i :: 0 <= i < |rows| && rows[i].orderId == orderId ==> rows[i].quantity > 0
    ensures forall i :: 0 <= i < |MatchingRows(rows, orderId)| ==> MatchingRows(rows, orderId)[i].quantity > 0
    decreases |rows|
  {
    if rows != [] {
      assert forall i :: 1 <= i < |rows| ==> rows[1..][i - 1] == rows[i];
      MatchingRowsPositive(rows[1..], orderId);
    }
  }

  /** With a well-formed order row and item rows, rebuilding fails only for want of items. */
  lemma RebuildWellFormed(row: OrderRow, itemRows: seq<ItemRow>)
    requires row.id != "" && row.customerId != ""
    requires forall i :: 0 <= i < |itemRows| ==> itemRows[i].quantity > 0
    ensures Rebuild(row, itemRows).Success? <==> itemRows != []
    ensures Rebuild(row, itemRows).Failure? ==> Rebuild(row, itemRows).error == ValidationError(ItemsRequired)
  {
  }

  /** `FindOwnItems` is the single-order view of `findAll`. */
  lemma FindOwnItemsAgreesWithFindAll(t: Tables, k: nat)
    requires k < |t.orders| && FindAll(t).Success?
    requires forall j :: 0 <= j < k ==> t.orders[j].id != t.orders[k].id
    ensures FindOwnItems(t, t.orders[k].id) == Success(FindAll(t).value[k])
  {
    var r := RebuildAll(t.orders, t.items);
    assert Success(r.value[k]) == Rebuild(t.orders[k], MatchingRows(t.items, t.orders[k].id));
    FindOwnItemsOfRow(t, k, r.value[k]);
  }

  lemma FirstWithId(rows: seq<OrderRow>, k: nat)
    requires k < |rows|
    requires forall j :: 0 <= j < k ==> rows[j].id != rows[k].id
    ensures FindOne(rows, rows[k].id) == Success(rows[k])
  {
  }

  /** Round trip for the corrected lookup: each stored order is found unchanged by its id. */
  lemma FindOwnItemsRoundTrip(os: seq<Order>, k: nat)
    requires forall i :: 0 <= i < |os| ==> ValidOrder(os[i])
    requires DistinctIds(os) && k < |os|
    ensures FindOwnItems(Store(os), os[k].id) == Success(os[k])
  {
    var t := Store(os);
    StoredOrderRows(os);
    assert forall j :: 0 <= j < k ==> t.orders[j].id != t.orders[k].id;
    RebuildStoredRow(os, k);
    FindOwnItemsOfRow(t, k, os[k]);
  }

  lemma FindOwnItemsOfRow(t: Tables, k: nat, o: Order)
    requires k < |t.orders|
    requires forall j :: 0 <= j < k ==> t.orders[j].id != t.orders[k].id
    requires Rebuild(t.orders[k], MatchingRows(t.items, t.orders[k].id)) == Success(o)
    ensures FindOwnItems(t, t.orders[k].id) == Success(o)
  {
  }

  lemma StoreTwo(o1: Order, o2: Order)
    ensures Store([o1, o2]) == Tables([OrderRowOf(o1), OrderRowOf(o2)], ItemRowsOf(o1) + ItemRowsOf(o2))
  {
    assert [o1, o2][..1] == [o1];
    assert [o1][..0] == [];
    StoreStep([o1, o2]);
    StoreStep([o1]);
    assert [] + ItemRowsOf(o1) == ItemRowsOf(o1);
  }

  /** `find` as written mixes orders: with the two orders of the repository's "find all"
      scenario stored, looking up the first returns it holding both orders' items. */
  lemma FindAttachesForeignItems()
    ensures var item1 := OrderItem("1", "123", "Product 1", 10, 2);
            var item2 := OrderItem("2", "456", "Product 2", 20, 3);
            var o1 := Order("123", "123", [item1]);
            var o2 := Order("456", "123", [item2]);
            Find(Store([o1, o2]), "123") == Success(Order("123", "123", [item1, item2])) &&
            Find(Store([o1, o2]), "123") != Success(o1) &&
            FindOwnItems(Store([o1, o2]), "123") == Success(o1)
  {
    var item1 := OrderItem("1", "123", "Product 1", 10, 2);
    var item2 := OrderItem("2", "456", "Product 2", 20, 3);
    var o1 := Order("123", "123", [item1]);
    var o2 := Order("456", "123", [item2]);
    StoreTwo(o1, o2);
    var t := Store([o1, o2]);
    assert t.items == [ItemRowOf(item1, "123"), ItemRowOf(item2, "456")];
    FirstWithId(t.orders, 0);
    var items := NewOrderItems(FieldsOfRows(t.items));
    assert items.Success?;
    assert items.value == [item1, item2];
    FindOwnItemsRoundTrip([o1, o2], 0);
  }

  /** `find` as written and the corrected lookup agree exactly when the question of
      ownership does not arise: when every item row belongs to the requested order, a
      successful `find` is what the corrected lookup returns. */
  lemma FindAgreesWhenAllRowsAreOwn(t: Tables, id: string)
    requires forall i :: 0 <= i < |t.items| ==> t.items[i].orderId == id
    ensures Find(t, id).Success? ==> Find(t, id) == FindOwnItems(t, id)
  {
    MatchingRowsAllOrNone(t.items, id, id);
  }

  /** An item row that belongs to no order is never built by `findAll`, but `find` as
      written builds every row: with one valid order stored and a quantity-0 row for
      an unknown order, `findAll` loads the order while `find` fails on the stray row. */
  lemma StrayRowBreaksOnlyFind()
    ensures var o := Order("1", "c", [OrderItem("i1", "p1", "Item 1", 10, 2)]);
            var t := Create(EmptyTables(), o);
            var t' := Tables(t.orders, t.items + [ItemRow("i2", "Stray", 5, "p2", 0, "zzz")]);
            && FindAll(t') == Success([o])
            && Find(t', "1") == Failure(ValidationError(QuantityNotPositive))
  {
    var o := Order("1", "c", [OrderItem("i1", "p1", "Item 1", 10, 2)]);
    var t := Create(EmptyTables(), o);
    var stray := ItemRow("i2", "Stray", 5, "p2", 0, "zzz");
    var t' := Tables(t.orders, t.items + [stray]);
    MatchingRowsAppend(t.items, [stray], "1");
    ItemRowsBelongToTheirOrder(o, "1");
    assert MatchingRows(t'.items, "1") == ItemRowsOf(o);
    RebuildCreatedRows(o);
    RebuildAllSucceeds(t'.orders, t'.items, [o]);
    assert FieldsOfRows(t'.items)[1].quantity == 0;
  }

  /** The repository's find scenario for the code as written: with one valid order
      stored by `create`, `find` by its id returns that order unchanged, id, customer
      id and items alike. */
  lemma FindSingleStored(o: Order)
    requires ValidOrder(o)
    ensures Find(Store([o]), o.id) == Success(o)
  {
    var t := Store([o]);
    assert [o][..0] == [];
    StoreStep([o]);
    assert t.items == ItemRowsOf(o);
    CreatedRowsDescribeItems(o);
    StoredOrderRows([o]);
    FirstWithId(t.orders, 0);
    assert FindOne(t.orders, o.id) == Success(OrderRowOf(o));
  }
}

=== FILE: wrappers.dfy ===
/** Failure-compatible result type shared by the entity and repository models.
    Where the modelled code throws, the function returns a `Failure` carrying the
    error, and `:-` propagates it the way the exception would. */
module Wrappers {

  datatype Result<+T, +E> = Success(value: T) | Failure(error: E) {

    predicate IsFailure() {
      Failure?
    }

    function PropagateFailure<U>(): Result<U, E>
      requires Failure?
    {
      Failure(error)
    }

    function Extract(): T
      requires Success?
    {
      value
    }
  }
}
